=== FILE: README.md ===
# A verified model of a toy proof-of-work ledger

This project models the `Blockchain` class of a small Python ledger node in Dafny and proves properties of the model. The modelled node keeps three things:

- a chain of blocks, each linked to its predecessor by the predecessor's hash;
- a pool of pending transactions, sealed into the next block when a block is mined;
- a set of peers.

A new block's proof must solve a puzzle posed by the previous proof. The hex SHA-256 digest of the two proofs' decimal strings, concatenated, must start with `"0000"`. Mining is a brute-force search from 0 upward. Conflicts between nodes are resolved by the longest-valid-chain rule.

The modules follow the parts of the class:

| file | module | what it holds |
|---|---|---|
| `types.dfy` | `Types` | transactions, blocks, the ledger record, peer replies, errors |
| `decimal.dfy` | `Decimal` | Python's `str` of an integer |
| `proof_of_work.dfy` | `ProofOfWork` | `valid_proof` and the proof search `proof_of_work` |
| `validation.dfy` | `Validation` | `valid_chain` and tamper detection |
| `blockchain.dfy` | `Blockchain` | construction, `new_block`, `new_transaction`, `last_block`, `register_node`, the mining composition |
| `consensus.dfy` | `Consensus` | `resolve_conflicts`: the selection over peer replies, as written and corrected |

The model is pure: every operation maps the old ledger to a new one. The source's exceptions become `Failure` values:

- `IndexError` on an empty chain is `EmptyChain`;
- a peer request that raises is `PeerUnreachable`;
- the `NameError` of line 161 is `UndefinedName`.

The block hash (SHA-256 over key-sorted JSON) and the string digest are function parameters, so every theorem holds for any hash function. Wall-clock time is the parameter `now`. URL parsing is the parameter `netloc`. The peer fetch is an arbitrary input sequence of `Fetch` values, one per request in the order the requests are made. Nothing ties that sequence to the ledger's peer set, so every theorem about resolution holds for any sequence of replies.

## Model

| member | source | states |
|---|---|---|
| `Blockchain.Init` | blockchain.py:14-19 | construction yields exactly one block (index 0, proof 100, no transactions, the integer sentinel 1 as `previous_hash`), an empty pool and no peers; no hash is taken |
| `Blockchain.InitEstablishesInvariant` | blockchain.py:14-19 | the new ledger is non-empty, its blocks sit at the positions their indices name, and its chain validates |
| `Blockchain.LastBlock` | blockchain.py:79-81 | fails with `EmptyChain` exactly on an empty chain; otherwise it returns the chain's final block |
| `Blockchain.NewBlock` | blockchain.py:39-49 | appends exactly one block and leaves all earlier blocks as they were; the block has index = old length, the old pool in order, the given proof, and the given link when truthy, else the hash of the old last block; the pool is emptied and peers kept; it fails exactly when no truthy link is given and the chain is empty |
| `Blockchain.NewBlockPreservesInvariant` | blockchain.py:39-49 | sealing a block on a well-indexed non-empty chain always succeeds and keeps it well indexed |
| `Blockchain.NewTransaction` | blockchain.py:60-66 | appends exactly one `{sender, recipient, amount}` record at the end of the pool and leaves chain and peers alone; it returns the last block's index + 1, or `EmptyChain` after the pool has already grown |
| `Blockchain.NewTransactionTargetsNextBlock` | blockchain.py:60-66 | on a well-indexed chain the returned index is the chain length, the index the next sealed block receives |
| `Blockchain.SubmitAllAppends` | blockchain.py:60-64 | submitting a batch of transactions appends them to the pool in submission order and changes nothing else |
| `Blockchain.PoolLifecycle` | blockchain.py:39-49 | after N submissions to an empty pool, the next sealed block holds exactly those N transactions in order and the pool is empty |
| `Blockchain.MiningPreservesValidity` | blockchain.py:201-214 | sealing a proof that is valid for the last proof, with the default link, keeps a valid chain valid, whatever was submitted in between |
| `Blockchain.Mine` | blockchain.py:201-214 | the mining composition appends one block with index = old length, timestamp `now`, the old pool plus the reward `("0", miner, 1)`, linked to the hash of the old last block; its proof is the least valid proof; it preserves validity and indexing |
| `Blockchain.EndToEnd` | blockchain.py:14-66 | construct, submit ("A","B",10), seal the least proof for 100: the chain has two blocks, the second holds exactly that transaction, links to the genesis hash, and the chain validates |
| `Blockchain.RegisterNode` | blockchain.py:28-29 | the peer set gains exactly `netloc(address)`; chain and pool are untouched |
| `Blockchain.RegisterNodeIdempotent` | blockchain.py:28-29 | registering the same address twice equals registering it once |
| `Decimal.NatToString` | blockchain.py:107 | `str` of a natural is a non-empty string whose first character is a digit; `Decimal.NatToStringValue` states which number it spells, and `Decimal.NatToStringDigits` and `Decimal.NatToStringInjective` state the rest |
| `Decimal.IntToString` | blockchain.py:107 | `str` of an integer is non-empty and starts with a minus sign exactly when the integer is negative; `Decimal.IntToStringValue` states which number it spells, and `Decimal.IntToStringInjective` states that it is injective |
| `Decimal.NatToStringValue` | blockchain.py:107 | the decimal digits of a natural's rendering, read left to right, spell that natural, and there is no leading zero unless the natural is 0 |
| `Decimal.IntToStringValue` | blockchain.py:107 | a negative integer renders as a minus sign before the rendering of its magnitude, and the digits spell that magnitude; a non-negative integer's rendering spells it directly |
| `Decimal.NatToStringDigits` | blockchain.py:107 | every character of a natural's decimal rendering is a digit |
| `Decimal.NatToStringInjective` | blockchain.py:107 | different naturals render to different decimal strings |
| `Decimal.IntToStringInjective` | blockchain.py:107 | different integers render to different strings |
| `ProofOfWork.Guess` | blockchain.py:107 | the hashed string `f'{last_proof}{proof}'`; it has no contract of its own, and `ProofOfWork.SameGuessSameVerdict` and `ProofOfWork.AmbiguousProofPairs` state how it determines the verdict |
| `ProofOfWork.ValidProof` | blockchain.py:107-110 | true exactly when the digest of the concatenated decimal strings is at least four characters long and starts with "0000" |
| `ProofOfWork.SameGuessSameVerdict` | blockchain.py:107-110 | the verdict depends only on the concatenated string |
| `ProofOfWork.AmbiguousProofPairs` | blockchain.py:107-110 | (1, 23) and (12, 3) hash the same string "123", so their verdicts agree |
| `ProofOfWork.FindProof` | blockchain.py:92-96 | the returned proof is non-negative and valid, and every smaller non-negative proof is invalid |
| `ProofOfWork.LeastProofUnique` | blockchain.py:92-96 | at most one proof has these properties, so the search result is determined |
| `Validation.Linked` | blockchain.py:130-135 | the two checks on one adjacent pair: the `previous_hash` is the predecessor's hash, and the proof solves the predecessor's puzzle; it has no contract of its own, and `Validation.ScanFrom` and `Validation.ValidChain` state the loop over it |
| `Validation.ScanFrom` | blockchain.py:123-140 | the loop from position i on returns true exactly when every pair from i on passes both checks |
| `Validation.ValidChain` | blockchain.py:120-140 | raises `EmptyChain` exactly on an empty chain; otherwise true exactly when every block after the first names the hash of its predecessor and solves its predecessor's puzzle |
| `Validation.AppendLinked` | blockchain.py:129-135 | appending a block that names the last block's hash and solves its puzzle keeps a valid chain valid |
| `Validation.SingleBlockValid` | blockchain.py:120-123 | a one-block chain is valid whatever it holds |
| `Validation.TamperDetected` | blockchain.py:129-131 | changing a block that has a successor into one with a different hash makes a valid chain invalid; the premise is exactly that the hash does not collide on the changed block |
| `Validation.TipContentUnchecked` | blockchain.py:120-140 | the last block's transactions, timestamp and index can be rewritten without making the chain invalid |
| `Consensus.Adopt` | blockchain.py:165-166 | the chain becomes the chosen candidate when there is one and it is non-empty (Python truthiness of `new_chain`), and is kept otherwise; pool and peers are untouched |
| `Consensus.SelectFrom` | blockchain.py:154-163 | the running maximum never falls, and a state the loop moves to holds a non-empty chain; what it selects and when it fails are stated by `Consensus.SelectFromChoosesLongest`, `Consensus.SelectFromFailsOnlyOnFault` and `Consensus.SelectFromFailsOnUnreachable` |
| `Consensus.SelectFromChoosesLongest` | blockchain.py:152-163 | the running-maximum loop keeps its state when no reply qualifies; otherwise it ends on the first qualifying reply with the largest reported length |
| `Consensus.SelectFromFailsOnlyOnFault` | blockchain.py:154-161 | the loop aborts only if some peer is unreachable or some 200 reply reporting more than the local length sends an empty chain |
| `Consensus.SelectFromFailsOnUnreachable` | blockchain.py:154-157 | any unreachable peer aborts the loop |
| `Consensus.Select` | blockchain.py:149-163 | against the local length: no candidate when no reply qualifies (status 200, strictly longer, non-empty, valid); otherwise the first qualifying reply with the largest reported length; it fails only if some peer is unreachable or some 200 reply reporting more than the local length sends an empty chain, and always on an unreachable peer |
| `Consensus.ResolveConflicts` | blockchain.py:149-169 | adopts the first longest qualifying chain or keeps the chain; pool and peers are untouched; returns `False` on both paths |
| `Consensus.ResolveConflictsReporting` | blockchain.py:142-147 | as above, but reports `True` exactly when some reply qualifies, that is, when a chain was adopted |
| `Consensus.LongerValidChainAdopted` | blockchain.py:161-166 | local length 3 and one peer with a valid chain of 5: the peer's chain is adopted |
| `Consensus.LongerInvalidChainRejected` | blockchain.py:161-166 | local length 3 and one peer with an invalid chain of 5: the chain is kept |
| `Consensus.NoLongerReplyKeepsChain` | blockchain.py:161 | replies reporting no more than the local length never replace the chain, so ties lose |
| `Consensus.SelectFromAsWritten` | blockchain.py:154-163 | as written, the loop never moves the running maximum and never records a candidate; a 200 reply longer than the maximum makes it fail, and with every peer reachable that failure is `UndefinedName` (the `NameError`) |
| `Consensus.ResolveConflictsAsWritten` | blockchain.py:149-169 | as written, the chain is never replaced; any 200 reply longer than the local chain makes the call fail, with `UndefinedName` when every peer is reachable |
| `Consensus.AsWrittenRaisesOnLongerPeer` | blockchain.py:159-161 | one input where validating the fetched chain adopts it, while the code as written raises `NameError` |
| `Consensus.LongerValidPeerChosen` | blockchain.py:142-167 | on that input the corrected resolution adopts the peer chain and reports `True` |
| `Consensus.ReportsFalseAfterReplacing` | blockchain.py:165-167 | on that input the chain is replaced yet `False` is returned |

## Findings

| source | as written | input that shows it | evidently intended | confidence | as-written member | corrected member |
|---|---|---|---|---|---|---|
| blockchain.py:161 | validates `chain`, a name bound nowhere in scope, instead of the fetched `chian` of line 159 | local chain of one block; one peer replies 200 with length 2 and a valid two-block chain: `NameError` | validate the fetched candidate | high; not executed | `Consensus.ResolveConflictsAsWritten` (exhibited by `Consensus.AsWrittenRaisesOnLongerPeer`) | `Consensus.ResolveConflicts` |
| blockchain.py:165-167 | returns `False` after replacing the chain; the docstring at line 146 promises `True` | the same input, with validation corrected: the chain is replaced and `False` is returned | return `True` when the chain is replaced | high; not executed | `Consensus.ResolveConflicts` (exhibited by `Consensus.ReportsFalseAfterReplacing`) | `Consensus.ResolveConflictsReporting` |

The model keeps three behaviours of the code that a reader of its documentation might not expect:

- A peer request that raises aborts the whole resolution, because nothing catches it. It is not skipped.
- `valid_chain` raises on an empty chain; it does not report it valid.
- `resolve_conflicts` returns `False` even after replacing the chain (second finding).

Adopting a peer chain does not re-establish the indexing invariant, because `valid_chain` never checks `index`. After adoption, `new_transaction` reports the adopted last block's index plus one, which need not be the chain length.

## Left out

- The Flask routes and app wiring (blockchain.py:171-269) are HTTP plumbing. Only `mine` is kept, as the composition `Blockchain.Mine`.
- The peer request itself is left out. It is replaced by the input sequence of replies.
- The request URL `/chian` and the reply key `lenght` (lines 155 and 158) do not match the served `/chain` route and `length` key (lines 225-229). These are transport-level defects. The model reads a reply's reported length directly.
- A reply whose JSON lacks a key, or whose blocks are not well-formed records, is not modelled. Peer blocks are typed `Block` values.
- SHA-256 and `json.dumps(..., sort_keys=True)` are foreign library calls. They are the function parameters `hash` and `digest`, with no property assumed except where a lemma states a premise about them.
- `time()` is wall-clock input. It is the parameter `now`, and the timestamp is carried as an opaque `real`.
- The `uuid4` node identifier is the parameter `minerId` of `Mine`.
- `urlparse(...).netloc` is a library call. It is the parameter `netloc` of `RegisterNode`.
- The `print` calls in `valid_chain` are output only.
- Transaction amounts are `int`. The source accepts any JSON number, and floating point is not modelled.
- Blockchain.Mine: requires a non-empty chain, so it does not model the `IndexError` that reading the last block of an empty chain raises at line 201. No ledger reachable from `Init` has an empty chain, because `NewBlock`, `NewTransaction` and `RegisterNode` keep the chain non-empty and `ResolveConflicts` adopts only non-empty chains.
- ProofOfWork.FindProof: the source loop runs forever when no valid proof exists. The method therefore requires that some non-negative valid proof exists, and proves only the validity and minimality of its result.
- Concurrency is left out. The Flask development server started at line 269 may handle requests on separate threads, so `/mine` can interleave with `/transactions/new` and `/nodes/resolve`. The model treats each operation, including the whole `/mine` route, as one uninterrupted step.

=== FILE: blockchain.dfy ===
/**
 The ledger operations of the `Blockchain` class: construction with the
 genesis block, sealing the pending pool into a new block, submitting a
 transaction, reading the last block, registering a peer, and the mining
 composition of the `/mine` route.

 Each operation is a pure function from the old ledger to the new one. The
 wall-clock time a block is sealed at is the parameter `now`.
 */
module Blockchain {
  import opened Types
  import opened ProofOfWork
  import opened Validation

  /** The genesis block's proof and its `previous_hash` sentinel. */
  const GenesisProof: int := 100
  const GenesisLink: Link := IntLink(1)

  const EmptyLedger: Ledger := Ledger([], [], {})

  /** `last_block`: the final element of the chain; raises on an empty chain. */
  function LastBlock(l: Ledger): (r: Result<Block>)
    ensures r.Success? <==> |l.chain| > 0
    ensures r.Failure? ==> r.error == EmptyChain
    ensures r.Success? ==> r.value in l.chain && l.chain == l.chain[..|l.chain| - 1] + [r.value]
  {
    if |l.chain| == 0 then Failure(EmptyChain) else Success(l.chain[|l.chain| - 1])
  }

  /** `new_block`: seal the pending pool into a block linked to the last one
      (or to a truthy `previousHash` when one is given) and append it. Hashing
      the last block of an empty chain raises. */
  function NewBlock(l: Ledger, proof: int, previousHash: Option<Link>, now: real, hash: BlockHash)
    : (r: Result<(Ledger, Block)>)
    ensures r.Success? <==> Truthy(previousHash) || |l.chain| > 0
    ensures r.Failure? ==> r.error == EmptyChain
    ensures r.Success? ==>
              var (l', b) := r.value;
              && l'.chain == l.chain + [b]
              && b.index == |l.chain|
              && b.timestamp == now
              && b.transactions == l.pending
              && b.proof == proof
              && l'.pending == []
              && l'.nodes == l.nodes
    ensures r.Success? && Truthy(previousHash) ==> r.value.1.previousHash == previousHash.value
    ensures r.Success? && !Truthy(previousHash) ==>
              r.value.1.previousHash == StrLink(hash(l.chain[|l.chain| - 1]))
  {
    var link :=
      if Truthy(previousHash) then Success(previousHash.value)
      else match LastBlock(l)
        case Success(last) => Success(StrLink(hash(last)))
        case Failure(e) => Failure(e);
    match link
    case Failure(e) => Failure(e)
    case Success(prev) =>
      var b := Block(|l.chain|, now, l.pending, proof, prev);
      Success((Ledger(l.chain + [b], [], l.nodes), b))
  }

  /** `Blockchain()`: an empty ledger that seals the genesis block with the
      sentinel link, so no hash is ever taken. */
  function Init(now: real, hash: BlockHash): (l: Ledger)
    ensures l.chain == [Block(0, now, [], GenesisProof, GenesisLink)]
    ensures l.pending == [] && l.nodes == {}
  {
    NewBlock(EmptyLedger, GenesisProof, Some(GenesisLink), now, hash).value.0
  }

  /** `new_transaction`: append the transaction to the pending pool, then
      report the index of the block after the last one. The pool has already
      grown when reading the last block of an empty chain raises. */
  function NewTransaction(l: Ledger, sender: string, recipient: string, amount: int)
    : (r: (Ledger, Result<int>))
    ensures r.0.pending == l.pending + [Tx(sender, recipient, amount)]
    ensures r.0.chain == l.chain && r.0.nodes == l.nodes
    ensures r.1.Success? <==> |l.chain| > 0
    ensures r.1.Failure? ==> r.1.error == EmptyChain
    ensures r.1.Success? ==> r.1.value == l.chain[|l.chain| - 1].index + 1
  {
    var l' := l.(pending := l.pending + [Tx(sender, recipient, amount)]);
    match LastBlock(l')
    case Success(last) => (l', Success(last.index + 1))
    case Failure(e) => (l', Failure(e))
  }

  /** `register_node`: add the network location of `address` to the peers.
      URL parsing is the parameter `netloc`. */
  function RegisterNode(l: Ledger, address: string, netloc: string -> string): (l': Ledger)
    ensures l'.nodes == l.nodes + {netloc(address)}
    ensures l'.chain == l.chain && l'.pending == l.pending
  {
    l.(nodes := l.nodes + {netloc(address)})
  }

  /** Registering the same address twice is the same as registering it once. */
  lemma RegisterNodeIdempotent(l: Ledger, address: string, netloc: string -> string)
    ensures RegisterNode(RegisterNode(l, address, netloc), address, netloc)
            == RegisterNode(l, address, netloc)
  {
  }

  /** Every block sits at the position its index names. */
  predicate Indexed(chain: seq<Block>)
  {
    forall i :: 0 <= i < |chain| ==> chain[i].index == i
  }

  /** What construction establishes and the ledger operations keep. */
  predicate Invariant(l: Ledger)
  {
    |l.chain| > 0 && Indexed(l.chain)
  }

  lemma InitEstablishesInvariant(now: real, hash: BlockHash, digest: HexDigest)
    ensures Invariant(Init(now, hash))
    ensures ValidChain(hash, digest, Init(now, hash).chain) == Success(true)
  {
  }

  lemma NewBlockPreservesInvariant(l: Ledger, proof: int, previousHash: Option<Link>, now: real, hash: BlockHash)
    requires Invariant(l)
    ensures NewBlock(l, proof, previousHash, now, hash).Success?
    ensures Invariant(NewBlock(l, proof, previousHash, now, hash).value.0)
  {
  }

  /** While the invariant holds, `new_transaction` reports the chain length,
      which is the index the next sealed block will get. */
  lemma NewTransactionTargetsNextBlock(l: Ledger, sender: string, recipient: string, amount: int)
    requires Invariant(l)
    ensures NewTransaction(l, sender, recipient, amount).1 == Success(|l.chain|)
    ensures Invariant(NewTransaction(l, sender, recipient, amount).0)
  {
  }

  /** Submit a batch of transactions one after the other. */
  function SubmitAll(l: Ledger, txs: seq<Tx>): Ledger
    decreases |txs|
  {
    if |txs| == 0 then l
    else SubmitAll(NewTransaction(l, txs[0].sender, txs[0].recipient, txs[0].amount).0, txs[1..])
  }

  /** Submitting appends to the pool in submission order and changes nothing else. */
  lemma {:induction false} SubmitAllAppends(l: Ledger, txs: seq<Tx>)
    ensures SubmitAll(l, txs) == l.(pending := l.pending + txs)
    decreases |txs|
  {
    if |txs| > 0 {
      var l1 := NewTransaction(l, txs[0].sender, txs[0].recipient, txs[0].amount).0;
      assert l1 == l.(pending := l.pending + [txs[0]]);
      SubmitAllAppends(l1, txs[1..]);
      assert l.pending + [txs[0]] + txs[1..] == l.pending + txs;
    }
  }

  /** Pool lifecycle: submit N transactions to an empty pool, seal a block,
      and the block holds exactly those N in order while the pool is empty. */
  lemma PoolLifecycle(l: Ledger, txs: seq<Tx>, proof: int, now: real, hash: BlockHash)
    requires |l.chain| > 0 && l.pending == []
    ensures var r := NewBlock(SubmitAll(l, txs), proof, None, now, hash);
            && r.Success?
            && r.value.1.transactions == txs
            && r.value.0.pending == []
            && r.value.0.chain == l.chain + [r.value.1]
  {
    SubmitAllAppends(l, txs);
  }

  /** Sealing a block with a valid proof and the default link keeps a valid
      chain valid, whatever was submitted in between. */
  lemma MiningPreservesValidity(
    l: Ledger, txs: seq<Tx>, proof: int, now: real, hash: BlockHash, digest: HexDigest)
    requires |l.chain| > 0
    requires AllLinked(hash, digest, l.chain)
    requires ValidProof(digest, l.chain[|l.chain| - 1].proof, proof)
    ensures var r := NewBlock(SubmitAll(l, txs), proof, None, now, hash);
            && r.Success?
            && ValidChain(hash, digest, r.value.0.chain) == Success(true)
  {
    SubmitAllAppends(l, txs);
    var r := NewBlock(SubmitAll(l, txs), proof, None, now, hash);
    var b := r.value.1;
    assert r.value.0.chain == l.chain + [b];
    assert Linked(hash, digest, l.chain[|l.chain| - 1], b);
    AppendLinked(hash, digest, l.chain, b);
  }

  /** The `/mine` route: find the least proof for the last block, reward the
      miner with one coin from sender "0", and seal the pool. */
  method Mine(l: Ledger, minerId: string, now: real, hash: BlockHash, digest: HexDigest)
    returns (l': Ledger, b: Block)
    requires |l.chain| > 0
    requires Solvable(digest, l.chain[|l.chain| - 1].proof)
    ensures l'.chain == l.chain + [b]
    ensures b.index == |l.chain| && b.timestamp == now
    ensures b.transactions == l.pending + [Tx("0", minerId, 1)]
    ensures b.previousHash == StrLink(hash(l.chain[|l.chain| - 1]))
    ensures IsLeastProof(digest, l.chain[|l.chain| - 1].proof, b.proof)
    ensures l'.pending == [] && l'.nodes == l.nodes
    ensures AllLinked(hash, digest, l.chain) ==> AllLinked(hash, digest, l'.chain)
    ensures Invariant(l) ==> Invariant(l')
  {
    var last := l.chain[|l.chain| - 1];
    var proof := FindProof(digest, last.proof);
    var (l1, _) := NewTransaction(l, "0", minerId, 1);
    var r := NewBlock(l1, proof, None, now, hash);
    l', b := r.value.0, r.value.1;
    if AllLinked(hash, digest, l.chain) {
      MiningPreservesValidity(l, [Tx("0", minerId, 1)], proof, now, hash, digest);
    }
  }

  /** The end-to-end scenario: construct, submit ("A", "B", 10), mine the
      least proof for the genesis proof 100, and seal. */
  lemma EndToEnd(t0: real, t1: real, hash: BlockHash, digest: HexDigest, p: int)
    requires IsLeastProof(digest, GenesisProof, p)
    ensures var l1 := NewTransaction(Init(t0, hash), "A", "B", 10);
            var r := NewBlock(l1.0, p, None, t1, hash);
            && l1.1 == Success(1)
            && r.Success?
            && |r.value.0.chain| == 2
            && r.value.0.chain[1].transactions == [Tx("A", "B", 10)]
            && r.value.0.chain[1].previousHash == StrLink(hash(r.value.0.chain[0]))
            && ValidChain(hash, digest, r.value.0.chain) == Success(true)
  {
    var l0 := Init(t0, hash);
    MiningPreservesValidity(l0, [Tx("A", "B", 10)], p, t1, hash, digest);
    assert SubmitAll(l0, [Tx("A", "B", 10)]) == NewTransaction(l0, "A", "B", 10).0;
  }
}

=== FILE: consensus.dfy ===
/**
 `resolve_conflicts`: the longest-valid-chain rule. The peers' replies are an
 arbitrary input sequence, one entry per request in the order they are made;
 nothing ties it to the ledger's peer set. The loop keeps a
 running maximum that starts at the local chain length and adopts a reply
 only when its status is 200, its reported length is strictly greater than
 the running maximum, and its chain validates.
 */
module Consensus {
  import opened Types
  import opened Validation

  /** The loop state: `max_lenght` and `new_chain`. */
  datatype Best = Best(length: int, chain: Option<seq<Block>>)

  /** A reply that the rule would adopt against the bar `bar`. */
  ghost predicate Qualifies(hash: BlockHash, digest: HexDigest, f: Fetch, bar: int)
  {
    && f.Reply?
    && f.status == 200
    && f.length > bar
    && |f.chain| > 0
    && AllLinked(hash, digest, f.chain)
  }

  /** Whether some reply qualifies against the bar `bar`. */
  ghost predicate SomeQualifies(hash: BlockHash, digest: HexDigest, rs: seq<Fetch>, bar: int)
  {
    exists j :: 0 <= j < |rs| && Qualifies(hash, digest, rs[j], bar)
  }

  /** The reference choice: reply `i` qualifies, no qualifying reply reports
      more, and every earlier qualifying reply reports strictly less. */
  ghost predicate ChosenAt(hash: BlockHash, digest: HexDigest, rs: seq<Fetch>, bar: int, i: int)
  {
    && 0 <= i < |rs|
    && Qualifies(hash, digest, rs[i], bar)
    && (forall j :: 0 <= j < |rs| && Qualifies(hash, digest, rs[j], bar) ==> rs[j].length <= rs[i].length)
    && (forall j :: 0 <= j < i && Qualifies(hash, digest, rs[j], bar) ==> rs[j].length < rs[i].length)
  }

  /** A reply that can abort the loop against the bar `bar`: the request
      raised, or a 200 reply reporting more than `bar` sends an empty chain
      (`chain[0]` raises if the running maximum lets it reach validation). */
  predicate Fault(f: Fetch, bar: int)
  {
    f.Unreachable? || (f.status == 200 && f.length > bar && |f.chain| == 0)
  }

  /** Whether `if new_chain:` takes its branch: a candidate was chosen and,
      by Python truthiness, it is not the empty list. */
  predicate Adopted(choice: Option<seq<Block>>)
  {
    choice.Some? && |choice.value| > 0
  }

  /** Replace the chain when `if new_chain:` holds, keep the ledger otherwise. */
  function Adopt(l: Ledger, choice: Option<seq<Block>>): (l': Ledger)
    ensures l'.pending == l.pending && l'.nodes == l.nodes
    ensures !Adopted(choice) ==> l' == l
    ensures Adopted(choice) ==> l'.chain == choice.value
  {
    match choice
    case None => l
    case Some(c) => if |c| > 0 then l.(chain := c) else l
  }

  /** The loop of lines 154-163, validating the fetched candidate. The running
      maximum never falls, and a state it moves to holds a non-empty chain. */
  function SelectFrom(hash: BlockHash, digest: HexDigest, rs: seq<Fetch>, st: Best): (r: Result<Best>)
    ensures r.Success? ==> r.value.length >= st.length
    ensures r.Success? && r.value != st ==> Adopted(r.value.chain)
    decreases |rs|
  {
    if |rs| == 0 then Success(st)
    else match rs[0]
      case Unreachable => Failure(PeerUnreachable)
      case Reply(status, length, c) =>
        if status == 200 && length > st.length then
          match ValidChain(hash, digest, c)
          case Failure(e) => Failure(e)
          case Success(ok) =>
            if ok then SelectFrom(hash, digest, rs[1..], Best(length, Some(c)))
            else SelectFrom(hash, digest, rs[1..], st)
        else SelectFrom(hash, digest, rs[1..], st)
  }

  /** The reply at the head does not qualify, so the qualifying replies and
      the reference choice are those of the tail, shifted by one. */
  lemma ShiftPastNonQualifying(hash: BlockHash, digest: HexDigest, rs: seq<Fetch>, bar: int, i: int)
    requires |rs| > 0 && !Qualifies(hash, digest, rs[0], bar)
    requires ChosenAt(hash, digest, rs[1..], bar, i)
    ensures ChosenAt(hash, digest, rs, bar, i + 1)
  {
    var tail := rs[1..];
    forall j | 0 <= j < |rs| && Qualifies(hash, digest, rs[j], bar)
      ensures rs[j].length <= rs[i + 1].length && (j < i + 1 ==> rs[j].length < rs[i + 1].length)
    {
      assert j > 0 && rs[j] == tail[j - 1];
    }
  }

  /** The loop, started in `st` over `rs`, ended in `out` as the reference
      choice against the bar `st.length` says it should. */
  ghost predicate EndsOnChoice(hash: BlockHash, digest: HexDigest, rs: seq<Fetch>, st: Best, out: Best)
  {
    && (!SomeQualifies(hash, digest, rs, st.length) ==> out == st)
    && (SomeQualifies(hash, digest, rs, st.length) ==>
          exists i :: ChosenAt(hash, digest, rs, st.length, i) && out == Best(rs[i].length, Some(rs[i].chain)))
  }

  /** Step of the induction when the head reply qualifies and raises the bar. */
  lemma HeadQualifies(hash: BlockHash, digest: HexDigest, rs: seq<Fetch>, st: Best, out: Best)
    requires |rs| > 0 && Qualifies(hash, digest, rs[0], st.length)
    requires EndsOnChoice(hash, digest, rs[1..], Best(rs[0].length, Some(rs[0].chain)), out)
    ensures EndsOnChoice(hash, digest, rs, st, out)
  {
    var f, tail := rs[0], rs[1..];
    assert forall j :: 1 <= j < |rs| ==> rs[j] == tail[j - 1];
    if SomeQualifies(hash, digest, tail, f.length) {
      var i' :| ChosenAt(hash, digest, tail, f.length, i') && out == Best(tail[i'].length, Some(tail[i'].chain));
      var i := i' + 1;
      forall j | 0 <= j < |rs| && Qualifies(hash, digest, rs[j], st.length)
        ensures rs[j].length <= rs[i].length && (j < i ==> rs[j].length < rs[i].length)
      {
        if j > 0 && rs[j].length > f.length {
          assert Qualifies(hash, digest, tail[j - 1], f.length);
        }
      }
      assert ChosenAt(hash, digest, rs, st.length, i);
    } else {
      forall j | 0 <= j < |rs| && Qualifies(hash, digest, rs[j], st.length)
        ensures rs[j].length <= f.length
      {
        if j > 0 {
          assert !Qualifies(hash, digest, tail[j - 1], f.length);
        }
      }
      assert ChosenAt(hash, digest, rs, st.length, 0);
    }
  }

  /** Step of the induction when the head reply does not qualify. */
  lemma HeadSkipped(hash: BlockHash, digest: HexDigest, rs: seq<Fetch>, st: Best, out: Best)
    requires |rs| > 0 && !Qualifies(hash, digest, rs[0], st.length)
    requires EndsOnChoice(hash, digest, rs[1..], st, out)
    ensures EndsOnChoice(hash, digest, rs, st, out)
  {
    var tail := rs[1..];
    if SomeQualifies(hash, digest, rs, st.length) {
      var j :| 0 <= j < |rs| && Qualifies(hash, digest, rs[j], st.length);
      assert Qualifies(hash, digest, tail[j - 1], st.length);
      var i' :| ChosenAt(hash, digest, tail, st.length, i') && out == Best(tail[i'].length, Some(tail[i'].chain));
      ShiftPastNonQualifying(hash, digest, rs, st.length, i');
    } else {
      forall j | 0 <= j < |tail|
        ensures !Qualifies(hash, digest, tail[j], st.length)
      {
        assert tail[j] == rs[j + 1];
      }
    }
  }

  /** The running maximum finds the reference choice. */
  lemma {:induction false} SelectFromChoosesLongest(hash: BlockHash, digest: HexDigest, rs: seq<Fetch>, st: Best)
    requires SelectFrom(hash, digest, rs, st).Success?
    ensures var out := SelectFrom(hash, digest, rs, st).value;
            && (!SomeQualifies(hash, digest, rs, st.length) ==> out == st)
            && (SomeQualifies(hash, digest, rs, st.length) ==>
                  exists i :: ChosenAt(hash, digest, rs, st.length, i)
                              && out == Best(rs[i].length, Some(rs[i].chain)))
    decreases |rs|
  {
    if |rs| == 0 {
      return;
    }
    var out := SelectFrom(hash, digest, rs, st).value;
    var f, tail := rs[0], rs[1..];
    if Qualifies(hash, digest, f, st.length) {
      var st' := Best(f.length, Some(f.chain));
      assert SelectFrom(hash, digest, rs, st) == SelectFrom(hash, digest, tail, st');
      SelectFromChoosesLongest(hash, digest, tail, st');
      HeadQualifies(hash, digest, rs, st, out);
    } else {
      assert SelectFrom(hash, digest, rs, st) == SelectFrom(hash, digest, tail, st);
      SelectFromChoosesLongest(hash, digest, tail, st);
      HeadSkipped(hash, digest, rs, st, out);
    }
  }

  /** The loop aborts only on a faulty reply; the bar may only have risen. */
  lemma {:induction false} SelectFromFailsOnlyOnFault(
    hash: BlockHash, digest: HexDigest, rs: seq<Fetch>, st: Best, bar: int)
    requires st.length >= bar
    requires SelectFrom(hash, digest, rs, st).Failure?
    ensures exists j :: 0 <= j < |rs| && Fault(rs[j], bar)
    decreases |rs|
  {
    var f, tail := rs[0], rs[1..];
    if Fault(f, bar) {
      return;
    }
    if f.status == 200 && f.length > st.length && AllLinked(hash, digest, f.chain) {
      SelectFromFailsOnlyOnFault(hash, digest, tail, Best(f.length, Some(f.chain)), bar);
    } else {
      SelectFromFailsOnlyOnFault(hash, digest, tail, st, bar);
    }
    var j :| 0 <= j < |tail| && Fault(tail[j], bar);
    assert rs[j + 1] == tail[j];
  }

  /** An unreachable peer always aborts the loop: nothing catches the error. */
  lemma {:induction false} SelectFromFailsOnUnreachable(
    hash: BlockHash, digest: HexDigest, rs: seq<Fetch>, st: Best)
    ensures (exists j :: 0 <= j < |rs| && rs[j].Unreachable?) ==> SelectFrom(hash, digest, rs, st).Failure?
    decreases |rs|
  {
    if |rs| == 0 || rs[0].Unreachable? {
      return;
    }
    var f, tail := rs[0], rs[1..];
    if f.status == 200 && f.length > st.length && |f.chain| == 0 {
      return;
    }
    if f.status == 200 && f.length > st.length && AllLinked(hash, digest, f.chain) {
      SelectFromFailsOnUnreachable(hash, digest, tail, Best(f.length, Some(f.chain)));
    } else {
      SelectFromFailsOnUnreachable(hash, digest, tail, st);
    }
    if exists j :: 0 <= j < |rs| && rs[j].Unreachable? {
      var j :| 0 <= j < |rs| && rs[j].Unreachable?;
      assert tail[j - 1] == rs[j];
    }
  }

  /** The selection of `resolve_conflicts` against the local chain length:
      no candidate when none qualifies, otherwise the reference choice. */
  function Select(hash: BlockHash, digest: HexDigest, rs: seq<Fetch>, localLength: int)
    : (r: Result<Option<seq<Block>>>)
    ensures r.Success? && !SomeQualifies(hash, digest, rs, localLength) ==>
              r.value == None
    ensures r.Success? && SomeQualifies(hash, digest, rs, localLength) ==>
              exists i :: ChosenAt(hash, digest, rs, localLength, i) && r.value == Some(rs[i].chain)
    ensures r.Failure? ==> exists j :: 0 <= j < |rs| && Fault(rs[j], localLength)
    ensures (exists j :: 0 <= j < |rs| && rs[j].Unreachable?) ==> r.Failure?
  {
    var st := Best(localLength, None);
    var out := SelectFrom(hash, digest, rs, st);
    SelectFromFailsOnUnreachable(hash, digest, rs, st);
    if out.Success? then
      SelectFromChoosesLongest(hash, digest, rs, st);
      Success(out.value.chain)
    else
      SelectFromFailsOnlyOnFault(hash, digest, rs, st, localLength);
      Failure(out.error)
  }

  /** `resolve_conflicts` with the candidate validated: the chain becomes the
      first longest qualifying chain, or stays; pool and peers are untouched.
      As written, it reports `False` on both paths. */
  function ResolveConflicts(hash: BlockHash, digest: HexDigest, l: Ledger, rs: seq<Fetch>)
    : (r: Result<(Ledger, bool)>)
    ensures r.Success? ==> !r.value.1
    ensures r.Success? ==> r.value.0.pending == l.pending && r.value.0.nodes == l.nodes
    ensures r.Success? && !SomeQualifies(hash, digest, rs, |l.chain|) ==> r.value.0 == l
    ensures r.Success? && SomeQualifies(hash, digest, rs, |l.chain|) ==>
              exists i :: ChosenAt(hash, digest, rs, |l.chain|, i) && r.value.0.chain == rs[i].chain
    ensures r.Failure? ==> exists j :: 0 <= j < |rs| && Fault(rs[j], |l.chain|)
    ensures (exists j :: 0 <= j < |rs| && rs[j].Unreachable?) ==> r.Failure?
  {
    match Select(hash, digest, rs, |l.chain|)
    case Failure(e) => Failure(e)
    case Success(choice) => Success((Adopt(l, choice), false))
  }

  /** `resolve_conflicts` as its documentation promises: it reports `True`
      exactly when a peer chain was adopted. */
  function ResolveConflictsReporting(hash: BlockHash, digest: HexDigest, l: Ledger, rs: seq<Fetch>)
    : (r: Result<(Ledger, bool)>)
    ensures r.Success? ==> (r.value.1 <==> SomeQualifies(hash, digest, rs, |l.chain|))
    ensures r.Success? ==> r.value.0.pending == l.pending && r.value.0.nodes == l.nodes
    ensures r.Success? && !r.value.1 ==> r.value.0 == l
    ensures r.Success? && r.value.1 ==>
              exists i :: ChosenAt(hash, digest, rs, |l.chain|, i) && r.value.0.chain == rs[i].chain
    ensures r.Failure? ==> exists j :: 0 <= j < |rs| && Fault(rs[j], |l.chain|)
    ensures (exists j :: 0 <= j < |rs| && rs[j].Unreachable?) ==> r.Failure?
  {
    match Select(hash, digest, rs, |l.chain|)
    case Failure(e) => Failure(e)
    case Success(choice) => Success((Adopt(l, choice), Adopted(choice)))
  }

  /** A 200 reply reporting more than the bar: the one the source then
      tries to validate. */
  predicate LongerReply(f: Fetch, bar: int)
  {
    f.Reply? && f.status == 200 && f.length > bar
  }

  /** The loop as written: line 161 validates `chain`, a name bound nowhere,
      so the first 200 reply longer than the local chain raises, and the
      running maximum never moves. */
  function SelectFromAsWritten(rs: seq<Fetch>, st: Best): (r: Result<Best>)
    ensures r.Success? ==> r.value == st
    ensures (exists j :: 0 <= j < |rs| && LongerReply(rs[j], st.length)) ==> r.Failure?
    ensures ((forall j :: 0 <= j < |rs| ==> rs[j].Reply?)
             && (exists j :: 0 <= j < |rs| && LongerReply(rs[j], st.length)))
            ==> r == Failure(UndefinedName)
    decreases |rs|
  {
    if |rs| == 0 then Success(st)
    else match rs[0]
      case Unreachable => Failure(PeerUnreachable)
      case Reply(status, length, _) =>
        if status == 200 && length > st.length then Failure(UndefinedName)
        else SelectFromAsWritten(rs[1..], st)
  }

  /** `resolve_conflicts` exactly as written: it can never adopt a chain. */
  function ResolveConflictsAsWritten(l: Ledger, rs: seq<Fetch>): (r: Result<(Ledger, bool)>)
    ensures r.Success? ==> r.value == (l, false)
    ensures (exists j :: 0 <= j < |rs| && LongerReply(rs[j], |l.chain|)) ==> r.Failure?
    ensures ((forall j :: 0 <= j < |rs| ==> rs[j].Reply?)
             && (exists j :: 0 <= j < |rs| && LongerReply(rs[j], |l.chain|)))
            ==> r == Failure(UndefinedName)
  {
    match SelectFromAsWritten(rs, Best(|l.chain|, None))
    case Failure(e) => Failure(e)
    case Success(st) => Success((Adopt(l, st.chain), false))
  }

  /** Local chain of three blocks, one peer with a valid chain of five: the
      peer's chain is adopted. */
  lemma LongerValidChainAdopted(hash: BlockHash, digest: HexDigest, l: Ledger, c: seq<Block>)
    requires |l.chain| == 3 && |c| == 5
    requires AllLinked(hash, digest, c)
    ensures ResolveConflicts(hash, digest, l, [Reply(200, 5, c)]) == Success((l.(chain := c), false))
    ensures ResolveConflictsReporting(hash, digest, l, [Reply(200, 5, c)]) == Success((l.(chain := c), true))
  {
    assert Qualifies(hash, digest, [Reply(200, 5, c)][0], 3);
  }

  /** The same peer with an invalid chain of five is rejected. */
  lemma LongerInvalidChainRejected(hash: BlockHash, digest: HexDigest, l: Ledger, c: seq<Block>)
    requires |l.chain| == 3 && |c| == 5
    requires !AllLinked(hash, digest, c)
    ensures ResolveConflicts(hash, digest, l, [Reply(200, 5, c)]) == Success((l, false))
    ensures ResolveConflictsReporting(hash, digest, l, [Reply(200, 5, c)]) == Success((l, false))
  {
  }

  /** Replies that report no more than the local length are never adopted,
      however valid their chains: ties lose. */
  lemma {:induction false} NoLongerReplyKeepsChain(hash: BlockHash, digest: HexDigest, l: Ledger, rs: seq<Fetch>)
    requires forall j :: 0 <= j < |rs| ==> rs[j].Reply? && rs[j].length <= |l.chain|
    ensures ResolveConflicts(hash, digest, l, rs) == Success((l, false))
    ensures ResolveConflictsReporting(hash, digest, l, rs) == Success((l, false))
  {
    forall j | 0 <= j < |rs|
      ensures !Fault(rs[j], |l.chain|) && !Qualifies(hash, digest, rs[j], |l.chain|)
    {
    }
  }

  /** A hash and a digest under which every proof is valid, for the concrete
      inputs below. */
  const FixedHash: BlockHash := b => "h"
  const ZeroDigest: HexDigest := s => "0000"

  /** A one-block ledger and a peer sending a valid two-block chain. */
  const LocalLedger: Ledger := Ledger([Block(0, 0.0, [], 100, IntLink(1))], [], {})
  const PeerChain: seq<Block> := [Block(0, 0.0, [], 100, IntLink(1)), Block(1, 1.0, [], 7, StrLink("h"))]

  lemma PeerChainIsValid()
    ensures AllLinked(FixedHash, ZeroDigest, PeerChain)
  {
    assert Linked(FixedHash, ZeroDigest, PeerChain[0], PeerChain[1]);
  }

  /** On that input the validated loop adopts the peer chain, while the loop
      as written raises NameError. */
  lemma AsWrittenRaisesOnLongerPeer()
    ensures ResolveConflicts(FixedHash, ZeroDigest, LocalLedger, [Reply(200, 2, PeerChain)]).Success?
    ensures ResolveConflicts(FixedHash, ZeroDigest, LocalLedger, [Reply(200, 2, PeerChain)]).value.0.chain
            == PeerChain
    ensures ResolveConflictsAsWritten(LocalLedger, [Reply(200, 2, PeerChain)]) == Failure(UndefinedName)
  {
    PeerChainIsValid();
    LongerValidPeerChosen();
  }

  lemma LongerValidPeerChosen()
    ensures ResolveConflictsReporting(FixedHash, ZeroDigest, LocalLedger, [Reply(200, 2, PeerChain)])
            == Success((LocalLedger.(chain := PeerChain), true))
  {
    PeerChainIsValid();
    assert Qualifies(FixedHash, ZeroDigest, [Reply(200, 2, PeerChain)][0], 1);
  }

  /** On that input the chain is replaced, yet `resolve_conflicts` reports
      `False`; the documented result is `True`. */
  lemma ReportsFalseAfterReplacing()
    ensures var r := ResolveConflicts(FixedHash, ZeroDigest, LocalLedger, [Reply(200, 2, PeerChain)]);
            r == Success((LocalLedger.(chain := PeerChain), false))
            && r.value.0.chain != LocalLedger.chain
    ensures ResolveConflictsReporting(FixedHash, ZeroDigest, LocalLedger, [Reply(200, 2, PeerChain)]).value.1
  {
    LongerValidPeerChosen();
  }
}

=== FILE: decimal.dfy ===
/** Python's `str` of an integer: optional minus sign, then decimal digits
    with no leading zero. */
module Decimal {

  function Digit(d: nat): (c: char)
    requires d < 10
    ensures '0' <= c <= '9'
    ensures c as int - '0' as int == d
  {
    ('0' as int + d) as char
  }

  function NatToString(n: nat): (s: string)
    ensures |s| > 0
    ensures '0' <= s[0] <= '9'
    decreases n
  {
    if n < 10 then [Digit(n)] else NatToString(n / 10) + [Digit(n % 10)]
  }

  function IntToString(n: int): (s: string)
    ensures |s| > 0
    ensures s[0] == '-' <==> n < 0
  {
    if n < 0 then "-" + NatToString(-n) else NatToString(n)
  }

  /** Every character of a natural's rendering is a decimal digit. Kept out
      of the function's contract so that searches over many naturals stay
      cheap. */
  lemma {:induction false} NatToStringDigits(n: nat)
    ensures forall i :: 0 <= i < |NatToString(n)| ==> '0' <= NatToString(n)[i] <= '9'
    decreases n
  {
    if n >= 10 {
      NatToStringDigits(n / 10);
    }
  }

  /** The value a string of decimal digits spells, read left to right. */
  function DigitsValue(s: string): int
    decreases |s|
  {
    if |s| == 0 then 0 else DigitsValue(s[..|s| - 1]) * 10 + (s[|s| - 1] as int - '0' as int)
  }

  /** The rendering of a natural spells that natural, with no leading zero
      unless the natural is 0 itself. */
  lemma {:induction false} NatToStringValue(n: nat)
    ensures DigitsValue(NatToString(n)) == n
    ensures n >= 10 ==> NatToString(n)[0] != '0'
    decreases n
  {
    if n >= 10 {
      NatToStringValue(n / 10);
      var s := NatToString(n);
      assert s[..|s| - 1] == NatToString(n / 10);
    }
  }

  /** The rendering of an integer is a minus sign before the rendering of its
      magnitude when it is negative, and otherwise spells it directly. */
  lemma IntToStringValue(n: int)
    ensures n < 0 ==> IntToString(n)[1..] == NatToString(-n) && DigitsValue(IntToString(n)[1..]) == -n
    ensures n >= 0 ==> DigitsValue(IntToString(n)) == n
  {
    if n < 0 {
      NatToStringValue(-n);
    } else {
      NatToStringValue(n);
    }
  }

  /** A single digit renders as one character, larger naturals as more. */
  lemma NatToStringLength(n: nat)
    ensures |NatToString(n)| == 1 <==> n < 10
  {
  }

  /** Different naturals render differently. */
  lemma {:induction false} NatToStringInjective(m: nat, n: nat)
    requires NatToString(m) == NatToString(n)
    ensures m == n
    decreases n
  {
    NatToStringLength(m);
    NatToStringLength(n);
    var s := NatToString(n);
    if n >= 10 {
      assert m >= 10;
      assert Digit(m % 10) == s[|s| - 1] == Digit(n % 10);
      assert NatToString(m / 10) == s[..|s| - 1] == NatToString(n / 10);
      NatToStringInjective(m / 10, n / 10);
    } else {
      assert Digit(m) == s[0] == Digit(n);
    }
  }

  /** Different integers render differently. */
  lemma IntToStringInjective(m: int, n: int)
    requires IntToString(m) == IntToString(n)
    ensures m == n
  {
    if m < 0 {
      assert IntToString(m)[1..] == NatToString(-m);
      assert IntToString(n)[1..] == NatToString(-n);
      NatToStringInjective(-m, -n);
    } else {
      NatToStringInjective(m, n);
    }
  }
}

=== FILE: proof_of_work.dfy ===
/**
 The proof-of-work puzzle: a proof is valid for the previous proof when the
 hex digest of their concatenated decimal strings starts with four zeros,
 and mining searches for the least valid proof from 0 upward.
 */
module ProofOfWork {
  import opened Types
  import Decimal

  /** The required digest prefix: four hex zeros. */
  const Difficulty: string := "0000"

  /** The string that is hashed: the two proofs' decimal forms, concatenated. */
  function Guess(lastProof: int, proof: int): string
  {
    Decimal.IntToString(lastProof) + Decimal.IntToString(proof)
  }

  /** `valid_proof`: the first four characters of the digest are "0000". A
      digest shorter than four characters never matches. */
  function ValidProof(digest: HexDigest, lastProof: int, proof: int): (r: bool)
    ensures var g := digest(Guess(lastProof, proof));
            r <==> |g| >= 4 && g[..4] == "0000"
  {
    Difficulty <= digest(Guess(lastProof, proof))
  }

  /** Some non-negative proof solves the puzzle for `lastProof`. */
  ghost predicate Solvable(digest: HexDigest, lastProof: int)
  {
    exists w: nat :: ValidProof(digest, lastProof, w)
  }

  /** `p` is what `proof_of_work(lastProof)` returns: the least non-negative
      valid proof. */
  ghost predicate IsLeastProof(digest: HexDigest, lastProof: int, p: int)
  {
    && p >= 0
    && ValidProof(digest, lastProof, p)
    && forall q :: 0 <= q < p ==> !ValidProof(digest, lastProof, q)
  }

  /** `proof_of_work`: try 0, 1, 2, ... until a valid proof is found. The
      source loop never ends when no proof exists, so a caller must know that
      one does. */
  method FindProof(digest: HexDigest, lastProof: int) returns (p: int)
    requires Solvable(digest, lastProof)
    ensures p >= 0
    ensures ValidProof(digest, lastProof, p)
    ensures forall q :: 0 <= q < p ==> !ValidProof(digest, lastProof, q)
  {
    ghost var w: nat :| ValidProof(digest, lastProof, w);
    assert ValidProof(digest, lastProof, w);
    p := 0;
    while !ValidProof(digest, lastProof, p)
      invariant 0 <= p <= w
      invariant forall q :: 0 <= q < p ==> !ValidProof(digest, lastProof, q)
      decreases w - p
    {
      p := p + 1;
    }
  }

  /** There is only one least proof, so mining is deterministic. */
  lemma LeastProofUnique(digest: HexDigest, lastProof: int, p: int, p': int)
    requires IsLeastProof(digest, lastProof, p)
    requires IsLeastProof(digest, lastProof, p')
    ensures p == p'
  {
  }

  /** Validity depends on the concatenated string only: two proof pairs
      whose decimal forms concatenate to the same string are valid together. */
  lemma SameGuessSameVerdict(digest: HexDigest, a: int, b: int, c: int, d: int)
    requires Guess(a, b) == Guess(c, d)
    ensures ValidProof(digest, a, b) == ValidProof(digest, c, d)
  {
  }

  /** The concatenation is ambiguous: (1, 23) and (12, 3) both hash "123". */
  lemma AmbiguousProofPairs(digest: HexDigest)
    ensures Guess(1, 23) == "123"
    ensures ValidProof(digest, 1, 23) == ValidProof(digest, 12, 3)
  {
    assert Decimal.IntToString(23) == "23" by {
      assert Decimal.NatToString(2) == "2";
    }
    assert Decimal.IntToString(12) == "12" by {
      assert Decimal.NatToString(1) == "1";
    }
    assert Guess(12, 3) == "123";
  }
}

=== FILE: types.dfy ===
/**
 The records of the ledger: transactions, blocks, the ledger state, peer
 replies, and the failures the ledger operations can raise.

 Cryptography is not modelled. The SHA-256 hash of a block's canonical JSON
 and the SHA-256 hex digest of a string are passed to every operation that
 needs them as function values (`BlockHash`, `HexDigest`), so every property
 proved here holds for any hash function whatever.
 */
module Types {

  datatype Option<+T> = None | Some(value: T)

  /** The exceptions the source raises, as values. */
  datatype Error =
    | EmptyChain       // IndexError: `chain[-1]` or `chain[0]` on an empty list
    | PeerUnreachable  // the peer request raised before yielding a status
    | UndefinedName    // NameError: a name that is bound nowhere is read

  datatype Result<+T> = Success(value: T) | Failure(error: Error)

  /** A pending or sealed transaction; it has no identity beyond its content. */
  datatype Tx = Tx(sender: string, recipient: string, amount: int)

  /** The `previous_hash` field: the genesis block carries the integer
      sentinel 1, every mined block carries a hex digest string. */
  datatype Link = IntLink(n: int) | StrLink(s: string)

  /** Python truthiness of an optional `previous_hash` argument:
      `None`, `0` and `""` are false. */
  predicate Truthy(l: Option<Link>)
  {
    match l
    case None => false
    case Some(IntLink(n)) => n != 0
    case Some(StrLink(s)) => s != ""
  }

  /** A block. The timestamp is wall-clock time, carried opaquely. */
  datatype Block = Block(
    index: int,
    timestamp: real,
    transactions: seq<Tx>,
    proof: int,
    previousHash: Link)

  /** The state of one node: its chain, its pending pool and its peers. */
  datatype Ledger = Ledger(chain: seq<Block>, pending: seq<Tx>, nodes: set<string>)

  /** What one peer request yields: either it raised, or a reply with an HTTP
      status, the length the peer reports and the chain it sends. */
  datatype Fetch =
    | Unreachable
    | Reply(status: int, length: int, chain: seq<Block>)

  /** SHA-256 over the key-sorted JSON of a block, as a hex string. */
  type BlockHash = Block -> string

  /** SHA-256 hex digest of a string. */
  type HexDigest = string -> string
}

=== FILE: validation.dfy ===
/**
 `valid_chain`: a chain is valid when every block after the first names the
 hash of its predecessor and solves the puzzle posed by its predecessor's
 proof. The first block is trusted as it stands.
 */
module Validation {
  import opened Types
  import opened ProofOfWork

  /** The two checks made on one adjacent pair. */
  predicate Linked(hash: BlockHash, digest: HexDigest, prev: Block, curr: Block)
  {
    && curr.previousHash == StrLink(hash(prev))
    && ValidProof(digest, prev.proof, curr.proof)
  }

  /** The reference definition: every adjacent pair is linked. */
  ghost predicate AllLinked(hash: BlockHash, digest: HexDigest, chain: seq<Block>)
  {
    forall i :: 1 <= i < |chain| ==> Linked(hash, digest, chain[i - 1], chain[i])
  }

  /** The validation loop from position `i` on, stopping at the first pair
      that fails either check. */
  function ScanFrom(hash: BlockHash, digest: HexDigest, chain: seq<Block>, i: nat): (r: bool)
    requires 1 <= i <= |chain|
    ensures r <==> forall j :: i <= j < |chain| ==> Linked(hash, digest, chain[j - 1], chain[j])
    decreases |chain| - i
  {
    if i == |chain| then true
    else if chain[i].previousHash != StrLink(hash(chain[i - 1])) then false
    else if !ValidProof(digest, chain[i - 1].proof, chain[i].proof) then false
    else ScanFrom(hash, digest, chain, i + 1)
  }

  /** `valid_chain`. Reading `chain[0]` raises on an empty chain; otherwise
      the verdict is exactly `AllLinked`. */
  function ValidChain(hash: BlockHash, digest: HexDigest, chain: seq<Block>): (r: Result<bool>)
    ensures r.Failure? <==> |chain| == 0
    ensures r.Failure? ==> r.error == EmptyChain
    ensures r.Success? ==> (r.value <==> AllLinked(hash, digest, chain))
  {
    if |chain| == 0 then Failure(EmptyChain) else Success(ScanFrom(hash, digest, chain, 1))
  }

  /** Altering a block that has a successor, in a way the hash notices, makes
      the chain invalid: the successor's `previous_hash` no longer matches.
      The premise is exactly that the hash does not collide on the changed
      block. No hash can be injective on all blocks (blocks carry real
      timestamps, strings are countable), so collision-freeness is asked of
      the one changed block only. */
  lemma TamperDetected(hash: BlockHash, digest: HexDigest, chain: seq<Block>, k: nat, b: Block)
    requires AllLinked(hash, digest, chain)
    requires k + 1 < |chain|
    requires hash(b) != hash(chain[k])
    ensures !AllLinked(hash, digest, chain[k := b])
    ensures ValidChain(hash, digest, chain[k := b]) == Success(false)
  {
    var t := chain[k := b];
    assert t[k + 1] == chain[k + 1];
    assert !Linked(hash, digest, t[k], t[k + 1]);
  }

  /** The last block has no successor, so its transactions, timestamp and
      index are protected by nothing: rewriting them keeps the chain valid. */
  lemma TipContentUnchecked(hash: BlockHash, digest: HexDigest, chain: seq<Block>, b: Block)
    requires |chain| > 0
    requires AllLinked(hash, digest, chain)
    requires b.previousHash == chain[|chain| - 1].previousHash
    requires b.proof == chain[|chain| - 1].proof
    ensures ValidChain(hash, digest, chain[|chain| - 1 := b]) == Success(true)
  {
    var t := chain[|chain| - 1 := b];
    forall i | 1 <= i < |t|
      ensures Linked(hash, digest, t[i - 1], t[i])
    {
      assert Linked(hash, digest, chain[i - 1], chain[i]);
    }
  }

  /** Appending a block linked to the last one keeps a chain valid. */
  lemma AppendLinked(hash: BlockHash, digest: HexDigest, chain: seq<Block>, b: Block)
    requires |chain| > 0 && AllLinked(hash, digest, chain)
    requires Linked(hash, digest, chain[|chain| - 1], b)
    ensures AllLinked(hash, digest, chain + [b])
  {
    var c := chain + [b];
    forall i | 1 <= i < |c|
      ensures Linked(hash, digest, c[i - 1], c[i])
    {
      if i < |chain| {
        assert c[i - 1] == chain[i - 1] && c[i] == chain[i];
      }
    }
  }

  /** A single block is valid whatever it holds: genesis content is never
      checked. */
  lemma SingleBlockValid(hash: BlockHash, digest: HexDigest, b: Block)
    ensures ValidChain(hash, digest, [b]) == Success(true)
  {
  }
}
